=== FILE: README.md ===
# Venturi: a verified model of a hierarchical dependency injector

Venturi is a small JavaScript dependency injector. Each injector (a *container*)
has four pieces of state:

- an own table of constructors whose reads fall through to its parent's table;
- a cache of instances;
- an optional parent;
- an ordered list of linked peer containers.

`set(key, constructor)` writes the own table. `get(...keys)` returns an object
holding, for each key, the result of `getOrConstruct(key)`. That call works like
this:

1. It returns the cached instance if there is one.
2. Otherwise it looks for a constructor. A function in the own table is *direct*;
   a function found through the parent chain is *inherited*.
3. It always asks the links (`getFromLinks`). The links are asked in order, and
   the search stops at the first answer that is not `undefined`. If every link
   answers `undefined`, the parent's links are asked.
4. It picks a value by precedence: direct > truthy link answer > inherited.
5. It caches a value only when there is a function or a truthy link answer.
   A function's result is cached even when it is `undefined`.

This project models that core in Dafny and proves its precedence, caching,
visibility and sharing rules.

Modules:

- `values.dfy` (`Values`): JavaScript values as far as the injector can tell them
  apart: `undefined`, the other falsy values, and truthy values. It also holds the
  `Option` type.
- `registry.dfy` (`Registry`): the registration graph (own tables, parents,
  links). It defines the prototype-style table read `Lookup`, the write
  `Register`, and the direct/inherited classification `Classify`.
- `resolution.dfy` (`Resolution`): `getOrConstruct` and `getFromLinks`, written
  as the mutually recursive functions `Resolve`, `FromLinks` and `SearchLinks`.
  Each takes the graph and the sequence of instance caches and returns
  `(value, new caches)`.
- `venturi.dfy` (`Venturi`): the public operations over a `Store` of all
  containers: `New`, `Module`, `Set`, `GetOrConstruct` and `Get`. It also holds
  the scenarios of the repository's tests.

Modelling choices:

- Containers are numbered in creation order. The model only creates a container
  with a parent and links that already exist. So every parent and every link has
  a smaller id (`ValidGraph`). That id is the termination measure.
- Constructors are opaque. The registered function is a `FactoryName`. A
  `Runner` parameter `run(f, c, k)` gives the value function `f` returns when
  container `c` calls it to build key `k`. This parameter stands in for the
  function bodies, which are code outside the injector. A constructor runs at
  most once per container and key, so keying the runner by both leaves every
  call free to return a different value. For example, one function registered
  under two keys may build two distinct objects (`OneConstructorTwoKeys`).
- A key is a string, because JavaScript converts property keys to strings. The
  `undefined` that `get` reads past its last argument becomes the key
  `"undefined"`.

Behaviours of the code worth knowing:

- A request that finds no function and no truthy link answer returns
  `undefined` and caches nothing (`index.js:112`). This holds also when a link
  answered with a falsy value such as `null`. So a later `set` can still fill
  the key.
- A constructor that *returns* `undefined` is cached, because the cache test is
  `hasOwnProperty` (`index.js:90`).
- `get` also resolves and returns the key `"undefined"` (`index.js:65`). Its
  documentation at `index.js:54-59` promises only the requested values. See
  Findings.
- A non-function entry in a container's own table is not used. It still shadows
  an ancestor's function for that key, because `this.constructors[key]` stops at
  the first entry it finds (`index.js:85`, `index.js:91`).

## Model

| member | source | states |
|---|---|---|
| `Registry.Lookup` | index.js:85 | The prototype read `this.constructors[key]` returns the own entry when there is one. Whatever it returns is the entry of the container itself or of an ancestor. `LookupFindsNearestEntry` shows it is the nearest one and that it finds nothing exactly when the chain has no entry. |
| `Registry.LookupFindsNearestEntry` | index.js:14-19 | A read of the constructor table finds the entry of the nearest container on the parent chain that has one. It finds nothing exactly when no container on the chain has an entry. |
| `Registry.Register` | index.js:50-52 | `set` changes only the own table of the container it is called on, and only at that key. |
| `Registry.RegisterLookup` | index.js:50-52 | After `set(k, reg)` on `c`, a read on `d` finds `reg` exactly when `c` is `d` or an ancestor of `d` and nothing between them has its own entry for `k`. Every other read is unchanged. |
| `Registry.Classify` | index.js:91-98 | A constructor is direct exactly when the own table holds a function under the key. It is inherited exactly when the own table has no entry and the parent chain yields a function. Non-functions are neither. |
| `Resolution.Read` | index.js:117 | `this.instances[key]` is the cached value, or `undefined` when the container has no entry. |
| `Resolution.Chosen` | index.js:102-113 | The value to cache on a miss: a direct function's result beats everything, and a truthy link answer beats an inherited function. Nothing is cached exactly when there is no function and no truthy link answer. `DirectAlwaysWins`, `LinkBeatsInherited`, `InheritedOnlyWithoutLink` and `MissIsNotCached` state the same precedence for a whole request. |
| `Resolution.Resolve` | index.js:84-118 | `getOrConstruct` only adds cache entries for the requested key and never changes an existing entry. It never touches containers created later. Its result is what the container now has cached (or `undefined`). A cache hit returns the cached value and changes nothing. |
| `Resolution.FromLinks` | index.js:128-144 | `getFromLinks` only adds entries for the key, and never touches this container or later ones. Any answer other than `undefined` is the value cached under the key in some link of this container or of one of its ancestors. |
| `Resolution.SearchLinks` | index.js:134-137 | The link loop only adds entries for the key. Any answer other than `undefined` is the value now cached in one of the links searched. |
| `Resolution.DirectAlwaysWins` | index.js:100-104 | On a cache miss, an own function wins whatever the links answer. It is called with this container and its result is cached, even `undefined`. The links are still asked, and what they cached stays cached. |
| `Resolution.LinkBeatsInherited` | index.js:105-110 | Without a direct function, a truthy link answer is returned and cached, even when an inherited function exists. |
| `Resolution.InheritedOnlyWithoutLink` | index.js:105-107 | An inherited function is used only when the link answer is falsy. It is called with the requesting container and its result is cached there. |
| `Resolution.MissIsNotCached` | index.js:112-117 | With no usable function and a falsy link answer, the result is `undefined` and no entry is cached. |
| `Resolution.ResolvedStaysResolved` | index.js:90-117 | A request that produced a value, or found a function, leaves a cache entry, even when the function returned `undefined`. Once an entry exists, a repeated request returns the same result and changes nothing. So a constructor runs at most once per container and key. |
| `Resolution.SearchLinksAppend` | index.js:134-137 | Searching `ls1 + ls2` gives the same result as searching `ls1` when that finds an answer other than `undefined`; otherwise it continues with `ls2` from the caches `ls1` left. Links after the first answer are never asked. |
| `Resolution.CachedLinkAnswers` | index.js:134-137 | If any link searched already holds a value other than `undefined` for the key, the link loop answers with something other than `undefined`. This is the converse of `SearchLinks`'s guarantee. |
| `Resolution.LinkedValueAnswers` | index.js:128-144 | If any container in the link scope already holds a value other than `undefined` for the key, `getFromLinks` answers with something other than `undefined`. The link scope is the links of the container and of its ancestors. This is the converse of `FromLinks`'s guarantee. |
| `Resolution.NoLinksNoAnswer` | index.js:139-141 | The parent fallback asks only the parent's links, never the parent's registrations. When no container on the chain has links, the answer is `undefined` and nothing changes. |
| `Resolution.ChildBuildsOwnInstance` | index.js:139-141 | Without links on the chain, a child resolving an inherited function calls it with the child and caches the result in the child only. The parent's cache is neither read nor changed. |
| `Resolution.SharedThroughLink` | index.js:108-113 | A value taken from a link is cached in the requesting container and is the same value cached in a linked container. |
| `Venturi.New` | index.js:9-21 | A new container gets the next id and an empty own table and cache. It stores the given parent and links. Existing containers and their caches are unchanged. |
| `Venturi.Module` | index.js:23-40 | `module(...links)` creates a child of this container linked to exactly the given containers. The child starts with no instances, since it does not inherit the parent's. Existing containers and their caches are unchanged. |
| `Venturi.NewReadsThroughParent` | index.js:12-19 | A new container reads exactly what its parent reads (a root reads nothing). Existing containers read what they read before. |
| `Venturi.Set` | index.js:50-52 | `set` leaves every instance cache unchanged (stale instances stay). The container then reads the new entry. Its parent, its links and its other own entries are unchanged, and no other container's node changes. |
| `Venturi.SetVisibility` | index.js:50-52 | At store level: a registration is visible on the container and on every descendant that does not shadow it, including descendants created earlier. Every other read is unaffected. |
| `Venturi.ParentDoesNotSeeChildSet` | test/inheritance.js:57-63 | A child's registration never changes what its parent reads. |
| `Venturi.ChildSeesParentSet` | test/inheritance.js:44-55 | A child without its own entry reads what its parent registers, also when the parent registers it after the child was created. |
| `Venturi.GetOrConstruct` | index.js:84-118 | At store level: the graph is unchanged and caches only grow at the key. The result is the container's cached value, and a cache hit changes nothing. |
| `Venturi.LateSetRuns` | index.js:112-117 | After a request that cached nothing, `set(k, f)` makes the next request call `f` with the container and cache its result. |
| `Venturi.Arg` | index.js:66 | `arguments[i]` is the `i`-th key, and past the last argument it is `undefined`, used as the key `"undefined"`. |
| `Venturi.Arguments` | index.js:65-66 | The keys the `get` loop reads are every argument in order followed by one more, `"undefined"`. |
| `Venturi.ResolveAll` | index.js:65-68 | Requests resolved in turn over the threaded store keep every earlier cache entry. Each result other than `undefined` is still cached at the end. |
| `Venturi.Collect` | index.js:61-70 | The filled object has exactly the keys that were assigned. |
| `Venturi.CollectLastWins` | index.js:67 | The entry for a key holds the value of its last assignment. |
| `Venturi.Requests` | index.js:61-70 | A run of requests keeps the registration graph, and the returned object has exactly the requested keys. |
| `Venturi.RequestsLastWins` | index.js:65-70 | After a run of requests, each returned entry holds the value of its key's last request. |
| `Venturi.RequestsReturnCached` | index.js:65-70 | After a run of requests, every returned value other than `undefined` is the one the container has cached under that key. |
| `Venturi.Get` | index.js:60-71 | `get` as written returns the requested keys plus `"undefined"`. Its loop makes exactly the requests `keys` followed by `"undefined"`, each on the store the previous one left. |
| `Venturi.GetRequested` | index.js:54-71 | With the loop bound `i < arguments.length`, `get` returns exactly the requested values, as its documentation at index.js:54-59 promises. It makes exactly those requests. |
| `Venturi.GetMakesExtraRequest` | index.js:65-67 | For every input, `get` as written equals the corrected `get` followed by one extra request for `"undefined"`. That request's store is the one left, and its value is added under `"undefined"`. |
| `Venturi.GetWithoutKeysRunsUndefinedEntry` | index.js:65-67 | On a root with a function registered under `"undefined"`, `get()` with no arguments calls that function, caches its result and returns it. |
| `Venturi.LinkedInjectorsShareInstances` | test/links.js:13-41 | Provider and consumer are siblings, and the consumer is linked to the provider. After the provider builds `foo`, the consumer gets the same value, and both caches hold it. |
| `Venturi.OneConstructorTwoKeys` | index.js:42-52 | One function set under two keys of a container runs once for each key. Each key caches its own result, and the two results may differ. |
| `Venturi.ChildrenBuildTheirOwnInstances` | test/inheritance.js:14-31 | The parent registers `foo` after its child was created. The parent and the child each build their own instance by calling the constructor with themselves. The child's request leaves the parent's cache as it was. |

## Left out

- Constructors that call back into the injector (reentrancy, recursive self-requests) are not modelled: a constructor is an opaque value producer `run(f, c, k)`.
- Exceptions thrown by a constructor are not modelled. In the source an exception propagates and nothing is cached in this container for that key. Linked containers asked before the call may already have cached entries.
- Links added after creation are left out, cyclic or not. They arise through the array `index.js:20` keeps by reference, or by replacing `links` itself. An acyclic link to a later container resolves fine in the source, and a cyclic one recurses forever on a miss. The model's creation-order invariant excludes both.
- JavaScript prototype-chain details beyond the own/inherited distinction are left out. One example: `Object.prototype` members such as `toString` look like inherited functions on every container.
- Object identity is modelled only as equality of `Value`s. Mutation of returned objects is not modelled.
- The unused `modules` field (`index.js:18`) is left out.
- `toy.js` is an earlier standalone prototype and is not part of this model. `gulpfile.js` is build wiring and is not part of this model.
- Non-Venturi values passed as links or parent are left out; the model requires existing container ids.

## Findings

| source | as written | input that shows it | evidently intended | confidence | as-written member | corrected member |
|---|---|---|---|---|---|---|
| index.js:65 | `for (i = 0; i <= arguments.length; i++)` also resolves `arguments[arguments.length]`, i.e. the key `"undefined"`, and adds it to the result | `get()` on a root with a function registered under `"undefined"`: that function runs and its result is cached and returned | loop while `i < arguments.length`, returning exactly the requested keys | high (not executed) | `Venturi.Get`, `Venturi.GetMakesExtraRequest` | `Venturi.GetRequested` |

=== FILE: registry.dfy ===
/** The registration side of a tree of injectors: each container's own constructor
    table, its parent and its links, and the prototype-style lookup that lets a
    child read its ancestors' constructors.

    Containers are numbered in creation order. A container can only be created
    with a parent and links that already exist, so the parent and every link of
    container `i` have ids below `i`. `ValidGraph` records that invariant; it is
    what makes every walk over parents and links terminate.
 */
module Registry {
  import opened Values

  /** A container's id: its position in creation order. */
  type Id = nat

  /** What `set(key, value)` stored: a function, or any other value. */
  datatype Reg = Factory(fn: FactoryName) | Plain(v: Value)

  /** The part of a container that resolution never changes: the own
      constructor table, the optional parent and the ordered links. */
  datatype Node = Node(own: map<Key, Reg>, parent: Option<Id>, links: seq<Id>)

  type Graph = seq<Node>

  /** Every parent and every link of a container was created before it. */
  predicate ValidGraph(g: Graph) {
    forall i :: 0 <= i < |g| ==>
      (g[i].parent.Some? ==> g[i].parent.value < i) &&
      (forall j :: 0 <= j < |g[i].links| ==> g[i].links[j] < i)
  }

  /** The constructor table read of `this.constructors[key]`: the own entry if
      there is one, otherwise the parent's table, up to the root. The first entry
      found is returned whether or not it is a function: what it finds is the
      entry of `c` or of one of its ancestors, and an own entry is always the
      one found. */
  function Lookup(g: Graph, c: Id, k: Key): (r: Option<Reg>)
    requires ValidGraph(g) && c < |g|
    ensures k in g[c].own ==> r == Some(g[c].own[k])
    ensures r.Some? ==> exists a :: 0 <= a <= c && OnChain(g, a, c) && k in g[a].own && r == Some(g[a].own[k])
    decreases c
  {
    if k in g[c].own then Some(g[c].own[k])
    else match g[c].parent
      case None => None
      case Some(p) => Lookup(g, p, k)
  }

  /** `a` is `d` itself or one of its ancestors. */
  predicate OnChain(g: Graph, a: Id, d: Id)
    requires ValidGraph(g) && d < |g|
    decreases d
  {
    a == d || (g[d].parent.Some? && OnChain(g, a, g[d].parent.value))
  }

  /** Some container on the chain from `d` up to, but not including, `a` has
      its own entry for `k`. */
  predicate ShadowedBelow(g: Graph, d: Id, a: Id, k: Key)
    requires ValidGraph(g) && d < |g|
    decreases d
  {
    d != a && (k in g[d].own || (g[d].parent.Some? && ShadowedBelow(g, g[d].parent.value, a, k)))
  }

  lemma {:induction false} OnChainBelow(g: Graph, a: Id, d: Id)
    requires ValidGraph(g) && d < |g| && OnChain(g, a, d)
    ensures a <= d
    decreases d
  {
    if a != d {
      OnChainBelow(g, a, g[d].parent.value);
    }
  }

  /** The table read finds the nearest entry on the parent chain, and finds
      nothing exactly when no container on the chain has an entry. */
  lemma {:induction false} LookupFindsNearestEntry(g: Graph, c: Id, k: Key)
    requires ValidGraph(g) && c < |g|
    ensures Lookup(g, c, k).Some? ==>
      exists a :: 0 <= a <= c && OnChain(g, a, c) && k in g[a].own &&
        Lookup(g, c, k) == Some(g[a].own[k]) && !ShadowedBelow(g, c, a, k)
    ensures Lookup(g, c, k).None? ==>
      forall a :: 0 <= a <= c && OnChain(g, a, c) ==> k !in g[a].own
    decreases c
  {
    if k in g[c].own {
      assert OnChain(g, c, c) && !ShadowedBelow(g, c, c, k);
    } else if g[c].parent.Some? {
      var p := g[c].parent.value;
      LookupFindsNearestEntry(g, p, k);
      if Lookup(g, c, k).Some? {
        var a :| 0 <= a <= p && OnChain(g, a, p) && k in g[a].own &&
          Lookup(g, p, k) == Some(g[a].own[k]) && !ShadowedBelow(g, p, a, k);
        assert OnChain(g, a, c) && !ShadowedBelow(g, c, a, k);
      } else {
        forall a | 0 <= a <= c && OnChain(g, a, c)
          ensures k !in g[a].own
        {
          if a != c {
            OnChainBelow(g, a, p);
          }
        }
      }
    }
  }

  /** The write of `set(key, value)`: only this container's own table changes. */
  function Register(g: Graph, c: Id, k: Key, reg: Reg): (g': Graph)
    requires c < |g|
    ensures |g'| == |g|
    ensures forall d :: 0 <= d < |g| && d != c ==> g'[d] == g[d]
    ensures g'[c].parent == g[c].parent && g'[c].links == g[c].links
    ensures k in g'[c].own && g'[c].own[k] == reg
    ensures forall k' :: k' != k ==> (k' in g'[c].own <==> k' in g[c].own)
    ensures forall k' :: k' in g[c].own && k' != k ==> g'[c].own[k'] == g[c].own[k']
  {
    g[c := g[c].(own := g[c].own[k := reg])]
  }

  lemma RegisterKeepsValid(g: Graph, c: Id, k: Key, reg: Reg)
    requires ValidGraph(g) && c < |g|
    ensures ValidGraph(Register(g, c, k, reg))
  {
    var g' := Register(g, c, k, reg);
    forall i | 0 <= i < |g'|
      ensures g'[i].parent == g[i].parent && g'[i].links == g[i].links
    {
    }
  }

  /** Exactly who sees a registration: after `set(k, reg)` on `c`, a read of `k`
      on `d` finds `reg` when `c` is `d` or an ancestor of `d` and nothing between
      them has its own entry for `k`; every other read is as before. So a parent
      never sees a child's registration, every descendant sees its ancestors'
      registrations including later ones, and an own entry shadows the ancestors'
      for that container and its descendants only. */
  lemma {:induction false} RegisterLookup(g: Graph, c: Id, k: Key, reg: Reg, d: Id, k': Key)
    requires ValidGraph(g) && c < |g| && d < |g|
    ensures ValidGraph(Register(g, c, k, reg))
    ensures Lookup(Register(g, c, k, reg), d, k') ==
      if k' == k && OnChain(g, c, d) && !ShadowedBelow(g, d, c, k) then Some(reg)
      else Lookup(g, d, k')
    decreases d
  {
    RegisterKeepsValid(g, c, k, reg);
    var g' := Register(g, c, k, reg);
    if d == c {
      assert OnChain(g, c, d) && !ShadowedBelow(g, d, c, k);
      if k' != k && k' !in g[d].own && g[d].parent.Some? {
        var p := g[d].parent.value;
        RegisterLookup(g, c, k, reg, p, k');
      }
    } else if k' in g[d].own {
      assert k' == k ==> ShadowedBelow(g, d, c, k);
    } else if g[d].parent.Some? {
      var p := g[d].parent.value;
      RegisterLookup(g, c, k, reg, p, k');
      assert OnChain(g, c, d) == OnChain(g, c, p);
      assert k' == k ==> ShadowedBelow(g, d, c, k) == ShadowedBelow(g, p, c, k);
    } else {
      assert !OnChain(g, c, d);
    }
  }

  /** How the constructor found for a key is used: `direct` when it is a
      function in the container's own table, `inherited` when it is a function
      found through the parent chain; anything else is ignored. */
  datatype Match = Direct(fn: FactoryName) | Inherited(fn: FactoryName) | NoFactory

  function Classify(g: Graph, c: Id, k: Key): (m: Match)
    requires ValidGraph(g) && c < |g|
    ensures m.Direct? <==> k in g[c].own && g[c].own[k].Factory?
    ensures m.Direct? ==> g[c].own[k] == Factory(m.fn)
    ensures m.Inherited? <==>
      k !in g[c].own && g[c].parent.Some? &&
      Lookup(g, g[c].parent.value, k).Some? && Lookup(g, g[c].parent.value, k).value.Factory?
    ensures m.Inherited? ==> Lookup(g, g[c].parent.value, k) == Some(Factory(m.fn))
  {
    match Lookup(g, c, k)
    case Some(Factory(f)) => if k in g[c].own then Direct(f) else Inherited(f)
    case _ => NoFactory
  }

  /** Creating a container does not change what existing containers read. */
  lemma {:induction false} LookupExtend(g: Graph, n: Node, c: Id, k: Key)
    requires ValidGraph(g) && ValidGraph(g + [n]) && c < |g|
    ensures Lookup(g + [n], c, k) == Lookup(g, c, k)
    decreases c
  {
    assert (g + [n])[c] == g[c];
    if k !in g[c].own && g[c].parent.Some? {
      LookupExtend(g, n, g[c].parent.value, k);
    }
  }
}

=== FILE: resolution.dfy ===
/** The resolution algorithm: `getOrConstruct` and `getFromLinks`.

    Resolution never changes the graph (registrations, parents, links); it only
    adds instances to containers' caches. It is modelled as three mutually
    recursive functions over the graph and the sequence of caches:
    `Resolve` (getOrConstruct), `FromLinks` (getFromLinks) and `SearchLinks` (the
    ordered loop over one container's links inside getFromLinks). Links and
    parents have lower ids than the container that refers to them, so the
    container id is the termination measure.

    Constructors are opaque: `run(f, c, k)` is the value constructor `f` returns
    when container `c` calls it, with itself as the argument, to build `k`.
    Constructors that call back into the injector are not modelled.
 */
module Resolution {
  import opened Values
  import opened Registry

  /** A container's `instances` object. */
  type Cache = map<Key, Value>

  /** What a constructor returns when a container calls it to build a key. A
      constructor runs at most once per container and key, so every call it can
      make has its own result: two keys of one container sharing a constructor
      may get two different objects. */
  type Runner = (FactoryName, Id, Key) -> Value

  /** One cache per container of the graph. */
  predicate Fits(g: Graph, cs: seq<Cache>) {
    ValidGraph(g) && |cs| == |g|
  }

  /** `b` is `a`, or `a` with a first entry for `k` added. */
  predicate CacheStep(a: Cache, b: Cache, k: Key) {
    b == a || (k !in a && k in b && b == a[k := b[k]])
  }

  /** Resolving `k` only ever adds entries for `k`, and never changes an entry
      that is already cached. */
  predicate Grows(cs: seq<Cache>, cs': seq<Cache>, k: Key) {
    |cs'| == |cs| && forall d :: 0 <= d < |cs| ==> CacheStep(cs[d], cs'[d], k)
  }

  lemma GrowsTransitive(cs: seq<Cache>, cs': seq<Cache>, cs'': seq<Cache>, k: Key)
    requires Grows(cs, cs', k) && Grows(cs', cs'', k)
    ensures Grows(cs, cs'', k)
  {
    forall d | 0 <= d < |cs|
      ensures CacheStep(cs[d], cs''[d], k)
    {
      assert CacheStep(cs[d], cs'[d], k) && CacheStep(cs'[d], cs''[d], k);
    }
  }

  /** Every entry of `cs` is still in `cs'`, unchanged. */
  predicate Keeps(cs: seq<Cache>, cs': seq<Cache>) {
    |cs'| == |cs| &&
    forall d, key :: 0 <= d < |cs| && key in cs[d] ==> key in cs'[d] && cs'[d][key] == cs[d][key]
  }

  lemma GrowsKeeps(cs: seq<Cache>, cs': seq<Cache>, k: Key)
    requires Grows(cs, cs', k)
    ensures Keeps(cs, cs')
  {
    forall d, key | 0 <= d < |cs| && key in cs[d]
      ensures key in cs'[d] && cs'[d][key] == cs[d][key]
    {
      assert CacheStep(cs[d], cs'[d], k);
    }
  }

  lemma KeepsTransitive(cs: seq<Cache>, cs': seq<Cache>, cs'': seq<Cache>)
    requires Keeps(cs, cs') && Keeps(cs', cs'')
    ensures Keeps(cs, cs'')
  {
  }

  /** `this.instances[key]`: the own cache entry, or `undefined`. */
  function Read(cs: seq<Cache>, c: Id, k: Key): (v: Value)
    requires c < |cs|
    ensures k in cs[c] ==> v == cs[c][k]
    ensures k !in cs[c] ==> v == Undefined
  {
    if k in cs[c] then cs[c][k] else Undefined
  }

  /** The containers `getFromLinks` may ask on behalf of `c`: the links of `c`
      and of each of its ancestors. */
  function LinkScope(g: Graph, c: Id): (ids: set<Id>)
    requires ValidGraph(g) && c < |g|
    ensures forall d :: d in ids ==> d < c
    ensures forall j :: 0 <= j < |g[c].links| ==> g[c].links[j] in ids
    decreases c
  {
    (set l | l in g[c].links) +
      match g[c].parent
      case None => {}
      case Some(p) => LinkScope(g, p)
  }

  /** Neither `c` nor any of its ancestors has links. */
  predicate LinkFreeChain(g: Graph, c: Id)
    requires ValidGraph(g) && c < |g|
    decreases c
  {
    g[c].links == [] && (g[c].parent.Some? ==> LinkFreeChain(g, g[c].parent.value))
  }

  /** The precedence of `getOrConstruct` together with `instance || constructor(this)`:
      the value to cache, if any. A direct function beats everything, a truthy
      link answer beats an inherited function, and nothing is cached only when
      there is neither a function nor a truthy link answer. */
  function Chosen(m: Match, link: Value, c: Id, k: Key, run: Runner): (r: Option<Value>)
    ensures r.None? <==> m.NoFactory? && !IsTruthy(link)
    ensures m.Direct? ==> r == Some(run(m.fn, c, k))
    ensures !m.Direct? && IsTruthy(link) ==> r == Some(link)
    ensures m.Inherited? && !IsTruthy(link) ==> r == Some(run(m.fn, c, k))
  {
    if m.Direct? then Some(run(m.fn, c, k))
    else if m.Inherited? && !IsTruthy(link) then Some(run(m.fn, c, k))
    else if IsTruthy(link) then Some(link)
    else None
  }

  /** `getOrConstruct(key)` on container `c`. */
  function Resolve(g: Graph, cs: seq<Cache>, c: Id, k: Key, run: Runner): (r: (Value, seq<Cache>))
    requires Fits(g, cs) && c < |g|
    ensures Grows(cs, r.1, k)
    ensures forall d :: c < d < |cs| ==> r.1[d] == cs[d]
    ensures r.0 == Read(r.1, c, k)
    ensures k in cs[c] ==> r == (cs[c][k], cs)
    decreases c, 2, 0
  {
    if k in cs[c] then (cs[c][k], cs)
    else
      var l := FromLinks(g, cs, c, k, run);
      var cs' := match Chosen(Classify(g, c, k), l.0, c, k, run)
        case Some(v) => l.1[c := l.1[c][k := v]]
        case None => l.1;
      (Read(cs', c, k), cs')
  }

  /** `getFromLinks(key)` on container `c`: its own links in order, then, only if
      all of them gave `undefined`, the parent's `getFromLinks`. */
  function FromLinks(g: Graph, cs: seq<Cache>, c: Id, k: Key, run: Runner): (r: (Value, seq<Cache>))
    requires Fits(g, cs) && c < |g|
    ensures Grows(cs, r.1, k)
    ensures forall d :: c <= d < |cs| ==> r.1[d] == cs[d]
    ensures r.0 != Undefined ==>
      exists d :: d in LinkScope(g, c) && k in r.1[d] && r.1[d][k] == r.0
    decreases c, 1, 0
  {
    var s := SearchLinks(g, cs, g[c].links, k, run, c);
    if s.0 == Undefined && g[c].parent.Some? then
      var p := g[c].parent.value;
      var r := FromLinks(g, s.1, p, k, run);
      GrowsTransitive(cs, s.1, r.1, k);
      r
    else
      s
  }

  /** The loop of `getFromLinks`: ask each link in turn, stop at the first answer
      that is not `undefined`. Every link is below `bound`. */
  function SearchLinks(g: Graph, cs: seq<Cache>, ls: seq<Id>, k: Key, run: Runner, bound: Id): (r: (Value, seq<Cache>))
    requires Fits(g, cs) && bound <= |g|
    requires forall j :: 0 <= j < |ls| ==> ls[j] < bound
    ensures Grows(cs, r.1, k)
    ensures forall d :: bound <= d < |cs| ==> r.1[d] == cs[d]
    ensures r.0 != Undefined ==>
      exists j :: 0 <= j < |ls| && k in r.1[ls[j]] && r.1[ls[j]][k] == r.0
    decreases bound, 0, |ls|
  {
    if |ls| == 0 then (Undefined, cs)
    else
      var h := Resolve(g, cs, ls[0], k, run);
      if h.0 != Undefined then h
      else
        var r := SearchLinks(g, h.1, ls[1..], k, run, bound);
        GrowsTransitive(cs, h.1, r.1, k);
        r
  }

  // Precedence (getOrConstruct, once the cache has missed)

  /** A function in the container's own table always wins, whatever the links
      yield; it is called with this container, and its result is cached even when
      it is `undefined`. The links are still asked first, and what they cached
      stays cached. */
  lemma DirectAlwaysWins(g: Graph, cs: seq<Cache>, c: Id, k: Key, run: Runner, f: FactoryName)
    requires Fits(g, cs) && c < |g| && k !in cs[c]
    requires k in g[c].own && g[c].own[k] == Factory(f)
    ensures var l := FromLinks(g, cs, c, k, run);
      Resolve(g, cs, c, k, run) == (run(f, c, k), l.1[c := cs[c][k := run(f, c, k)]])
  {
  }

  /** A truthy answer from the links beats an inherited function, and is cached. */
  lemma LinkBeatsInherited(g: Graph, cs: seq<Cache>, c: Id, k: Key, run: Runner)
    requires Fits(g, cs) && c < |g| && k !in cs[c]
    requires !Classify(g, c, k).Direct?
    requires IsTruthy(FromLinks(g, cs, c, k, run).0)
    ensures var l := FromLinks(g, cs, c, k, run);
      Resolve(g, cs, c, k, run) == (l.0, l.1[c := cs[c][k := l.0]])
  {
  }

  /** An inherited function is used only when the links give nothing truthy;
      it is called with this container, not with the one it was registered on. */
  lemma InheritedOnlyWithoutLink(g: Graph, cs: seq<Cache>, c: Id, k: Key, run: Runner, f: FactoryName)
    requires Fits(g, cs) && c < |g| && k !in cs[c]
    requires Classify(g, c, k) == Inherited(f)
    requires !IsTruthy(FromLinks(g, cs, c, k, run).0)
    ensures var l := FromLinks(g, cs, c, k, run);
      Resolve(g, cs, c, k, run) == (run(f, c, k), l.1[c := cs[c][k := run(f, c, k)]])
  {
  }

  /** With no usable function and nothing truthy from the links the result is
      `undefined` and the miss is not cached, so a later request tries again. A
      non-function registration counts as no registration. */
  lemma MissIsNotCached(g: Graph, cs: seq<Cache>, c: Id, k: Key, run: Runner)
    requires Fits(g, cs) && c < |g| && k !in cs[c]
    requires Classify(g, c, k).NoFactory?
    requires !IsTruthy(FromLinks(g, cs, c, k, run).0)
    ensures var r := Resolve(g, cs, c, k, run);
      r.0 == Undefined && k !in r.1[c] && r.1 == FromLinks(g, cs, c, k, run).1
  {
  }

  /** Once a container has an entry for `k`, resolving `k` there returns it and
      changes nothing: no constructor runs again and no link is asked. Every
      resolution that produced a value, or that found a function (even one that
      returned `undefined`), leaves such an entry. */
  lemma {:induction false} ResolvedStaysResolved(g: Graph, cs: seq<Cache>, c: Id, k: Key, run: Runner)
    requires Fits(g, cs) && c < |g|
    ensures var r := Resolve(g, cs, c, k, run);
      Fits(g, r.1) &&
      (r.0 != Undefined ==> k in r.1[c]) &&
      (!Classify(g, c, k).NoFactory? ==> k in r.1[c]) &&
      (k in r.1[c] ==> Resolve(g, r.1, c, k, run) == r)
  {
  }

  // getFromLinks

  /** The link search is a left-to-right scan that stops at the first answer
      that is not `undefined`: searching `ls1 + ls2` is searching `ls1`, and only
      when that found nothing, searching `ls2` from the caches it left. In
      particular links after the first answer are never asked. */
  lemma {:induction false} SearchLinksAppend(g: Graph, cs: seq<Cache>, ls1: seq<Id>, ls2: seq<Id>, k: Key, run: Runner, bound: Id)
    requires Fits(g, cs) && bound <= |g|
    requires forall j :: 0 <= j < |ls1| ==> ls1[j] < bound
    requires forall j :: 0 <= j < |ls2| ==> ls2[j] < bound
    ensures var r1 := SearchLinks(g, cs, ls1, k, run, bound);
      SearchLinks(g, cs, ls1 + ls2, k, run, bound) ==
        if r1.0 != Undefined then r1 else SearchLinks(g, r1.1, ls2, k, run, bound)
    decreases |ls1|
  {
    if |ls1| == 0 {
      assert ls1 + ls2 == ls2;
    } else {
      var ls := ls1 + ls2;
      assert ls[0] == ls1[0] && ls[1..] == ls1[1..] + ls2;
      var h := Resolve(g, cs, ls1[0], k, run);
      if h.0 == Undefined {
        SearchLinksAppend(g, h.1, ls1[1..], ls2, k, run, bound);
      }
    }
  }

  /** The parent fallback of getFromLinks asks the parent's links, never the
      parent's registrations: when no container on the chain has links, the
      answer is `undefined` and nothing changes, whatever the ancestors
      register. */
  lemma {:induction false} NoLinksNoAnswer(g: Graph, cs: seq<Cache>, c: Id, k: Key, run: Runner)
    requires Fits(g, cs) && c < |g| && LinkFreeChain(g, c)
    ensures FromLinks(g, cs, c, k, run) == (Undefined, cs)
    decreases c
  {
    if g[c].parent.Some? {
      NoLinksNoAnswer(g, cs, g[c].parent.value, k, run);
    }
  }

  // Per-container caches and shared instances

  /** Without links on the chain, a child resolving an inherited function builds
      its own instance (the function is called with the child) and only the
      child's cache changes: the parent's entry, if any, is neither read nor
      touched. */
  lemma ChildBuildsOwnInstance(g: Graph, cs: seq<Cache>, c: Id, k: Key, run: Runner, f: FactoryName)
    requires Fits(g, cs) && c < |g| && k !in cs[c] && LinkFreeChain(g, c)
    requires Classify(g, c, k) == Inherited(f)
    ensures Resolve(g, cs, c, k, run) == (run(f, c, k), cs[c := cs[c][k := run(f, c, k)]])
  {
    NoLinksNoAnswer(g, cs, c, k, run);
  }

  /** A value taken from a link is the very value cached in a linked container,
      and it is now cached in the requesting container too: instances are shared
      between links. */
  lemma SharedThroughLink(g: Graph, cs: seq<Cache>, c: Id, k: Key, run: Runner)
    requires Fits(g, cs) && c < |g| && k !in cs[c]
    requires !Classify(g, c, k).Direct?
    requires IsTruthy(FromLinks(g, cs, c, k, run).0)
    ensures var r := Resolve(g, cs, c, k, run);
      k in r.1[c] && r.1[c][k] == r.0 &&
      exists d :: d in LinkScope(g, c) && k in r.1[d] && r.1[d][k] == r.0
  {
    var l := FromLinks(g, cs, c, k, run);
    var d :| d in LinkScope(g, c) && k in l.1[d] && l.1[d][k] == l.0;
    var r := Resolve(g, cs, c, k, run);
    assert r.1[d] == l.1[d];
  }

  // The converse for getFromLinks

  /** A link that already holds a value other than `undefined` for the key makes
      the link loop answer with something other than `undefined`: the search
      reaches that link at the latest, and asking it is a cache hit. */
  lemma {:induction false} CachedLinkAnswers(g: Graph, cs: seq<Cache>, ls: seq<Id>, k: Key, run: Runner, bound: Id, j: nat)
    requires Fits(g, cs) && bound <= |g|
    requires forall i :: 0 <= i < |ls| ==> ls[i] < bound
    requires j < |ls| && k in cs[ls[j]] && cs[ls[j]][k] != Undefined
    ensures SearchLinks(g, cs, ls, k, run, bound).0 != Undefined
    decreases j
  {
    var h := Resolve(g, cs, ls[0], k, run);
    if h.0 == Undefined {
      GrowsKeeps(cs, h.1, k);
      CachedLinkAnswers(g, h.1, ls[1..], k, run, bound, j - 1);
    }
  }

  /** The converse of `FromLinks`'s guarantee: a container anywhere in the link
      scope (a link of `c` or of one of its ancestors) holding a value other than
      `undefined` makes the answer of getFromLinks defined. Either the own links
      answer first, or they all answer `undefined`, and then the parent fallback
      reaches that container with the entry still cached. */
  lemma {:induction false} LinkedValueAnswers(g: Graph, cs: seq<Cache>, c: Id, k: Key, run: Runner, d: Id)
    requires Fits(g, cs) && c < |g|
    requires d in LinkScope(g, c) && k in cs[d] && cs[d][k] != Undefined
    ensures FromLinks(g, cs, c, k, run).0 != Undefined
    decreases c
  {
    var ls := g[c].links;
    var s := SearchLinks(g, cs, ls, k, run, c);
    if d in ls {
      var j :| 0 <= j < |ls| && ls[j] == d;
      CachedLinkAnswers(g, cs, ls, k, run, c, j);
    } else if s.0 == Undefined {
      var p := g[c].parent.value;
      GrowsKeeps(cs, s.1, k);
      LinkedValueAnswers(g, s.1, p, k, run, d);
    }
  }
}

=== FILE: values.dfy ===
/** JavaScript values as far as the injector observes them.

    The injector only ever asks three questions of a value: is it `undefined`
    (`typeof v === 'undefined'`), is it truthy (`if (v)`, `v || w`, `!v`), and is it
    the same value as another one. `Value` keeps exactly those distinctions: the
    payload of `Falsy` tells `null`, `false`, `0`, `NaN` and `""` apart, the payload of
    `Truthy` stands for the identity of any other value (an object, a function, a
    non-empty string, a non-zero number).
 */
module Values {

  datatype Option<+T> = None | Some(value: T)

  /** Property names. JavaScript converts every property key to a string. */
  type Key = string

  /** The identity of a JavaScript function registered as a constructor. */
  type FactoryName = nat

  datatype Value = Undefined | Falsy(which: nat) | Truthy(ref: nat)

  /** The property name `undefined` is converted to when used as a key. */
  const UndefinedKey: Key := "undefined"

  /** JavaScript truthiness. */
  predicate IsTruthy(v: Value) {
    v.Truthy?
  }
}

=== FILE: venturi.dfy ===
/** The public surface of the injector: `new Venturi(links, parent)`,
    `module(...links)`, `set(key, constructor)`, `get(...keys)` and
    `getOrConstruct(key)`, over a store holding every container created so far.
 */
module Venturi {
  import opened Values
  import opened Registry
  import opened Resolution

  /** Every container created so far, by id: the registration graph and, at the
      same index, the container's instance cache. */
  datatype Store = Store(graph: Graph, caches: seq<Cache>)

  predicate Valid(st: Store) {
    Fits(st.graph, st.caches)
  }

  /** A store before any container has been created. */
  const Empty: Store := Store([], [])

  /** `new Venturi(links, parent)`: a container with empty instances and an own
      table that reads through to the parent's. Only existing containers can be
      passed as parent and links. */
  function New(st: Store, links: seq<Id>, parent: Option<Id>): (r: (Id, Store))
    requires Valid(st)
    requires parent.Some? ==> parent.value < |st.graph|
    requires forall j :: 0 <= j < |links| ==> links[j] < |st.graph|
    ensures Valid(r.1)
    ensures r.0 == |st.graph| && |r.1.graph| == r.0 + 1
    ensures forall d :: 0 <= d < r.0 ==> r.1.graph[d] == st.graph[d] && r.1.caches[d] == st.caches[d]
    ensures r.1.graph[r.0].parent == parent && r.1.graph[r.0].links == links
    ensures r.1.caches[r.0] == map[]
    ensures forall k :: k !in r.1.graph[r.0].own
  {
    (|st.graph|, Store(st.graph + [Node(map[], parent, links)], st.caches + [map[]]))
  }

  /** `module(...links)` on container `c`: a child of `c` linked to `links`,
      starting with no instances of its own. */
  function Module(st: Store, c: Id, links: seq<Id>): (r: (Id, Store))
    requires Valid(st) && c < |st.graph|
    requires forall j :: 0 <= j < |links| ==> links[j] < |st.graph|
    ensures Valid(r.1) && r.0 == |st.graph| && |r.1.graph| == r.0 + 1
    ensures forall d :: 0 <= d < r.0 ==> r.1.graph[d] == st.graph[d] && r.1.caches[d] == st.caches[d]
    ensures r.1.graph[r.0].parent == Some(c) && r.1.graph[r.0].links == links
    ensures r.1.caches[r.0] == map[]
  {
    New(st, links, Some(c))
  }

  /** A new container reads exactly what its parent reads (a root reads
      nothing), and existing containers read what they read before. */
  lemma NewReadsThroughParent(st: Store, links: seq<Id>, parent: Option<Id>, k: Key)
    requires Valid(st)
    requires parent.Some? ==> parent.value < |st.graph|
    requires forall j :: 0 <= j < |links| ==> links[j] < |st.graph|
    ensures var r := New(st, links, parent);
      Lookup(r.1.graph, r.0, k) == (if parent.Some? then Lookup(st.graph, parent.value, k) else None) &&
      forall d :: 0 <= d < |st.graph| ==> Lookup(r.1.graph, d, k) == Lookup(st.graph, d, k)
  {
    var r := New(st, links, parent);
    var n := Node(map[], parent, links);
    assert r.1.graph == st.graph + [n];
    forall d | 0 <= d < |st.graph|
      ensures Lookup(r.1.graph, d, k) == Lookup(st.graph, d, k)
    {
      LookupExtend(st.graph, n, d, k);
    }
  }

  /** `set(key, reg)` on container `c`: writes `c`'s own table and nothing else;
      instances already cached stay as they are. */
  function Set(st: Store, c: Id, k: Key, reg: Reg): (st': Store)
    requires Valid(st) && c < |st.graph|
    ensures Valid(st')
    ensures st'.caches == st.caches
    ensures Lookup(st'.graph, c, k) == Some(reg)
    ensures forall d :: 0 <= d < |st.graph| && d != c ==> st'.graph[d] == st.graph[d]
    ensures st'.graph[c].parent == st.graph[c].parent && st'.graph[c].links == st.graph[c].links
    ensures forall k' :: k' != k ==> (k' in st'.graph[c].own <==> k' in st.graph[c].own)
    ensures forall k' :: k' in st.graph[c].own && k' != k ==> st'.graph[c].own[k'] == st.graph[c].own[k']
  {
    RegisterKeepsValid(st.graph, c, k, reg);
    Store(Register(st.graph, c, k, reg), st.caches)
  }

  /** A registration is visible on `c` and on every descendant of `c` that
      does not shadow it, including descendants created before the
      registration; every other read is unaffected. */
  lemma SetVisibility(st: Store, c: Id, k: Key, reg: Reg, d: Id, k': Key)
    requires Valid(st) && c < |st.graph| && d < |st.graph|
    ensures Lookup(Set(st, c, k, reg).graph, d, k') ==
      if k' == k && OnChain(st.graph, c, d) && !ShadowedBelow(st.graph, d, c, k) then Some(reg)
      else Lookup(st.graph, d, k')
  {
    RegisterLookup(st.graph, c, k, reg, d, k');
  }

  /** A parent never sees its child's registrations. */
  lemma ParentDoesNotSeeChildSet(st: Store, c: Id, k: Key, reg: Reg, k': Key)
    requires Valid(st) && c < |st.graph| && st.graph[c].parent.Some?
    ensures var p := st.graph[c].parent.value;
      Lookup(Set(st, c, k, reg).graph, p, k') == Lookup(st.graph, p, k')
  {
    var p := st.graph[c].parent.value;
    RegisterLookup(st.graph, c, k, reg, p, k');
    if OnChain(st.graph, c, p) {
      OnChainBelow(st.graph, c, p);
    }
  }

  /** A child without its own entry sees what its parent registers, also when
      the parent registers it after the child was created. */
  lemma ChildSeesParentSet(st: Store, p: Id, d: Id, k: Key, reg: Reg)
    requires Valid(st) && d < |st.graph| && st.graph[d].parent == Some(p)
    requires k !in st.graph[d].own
    ensures Lookup(Set(st, p, k, reg).graph, d, k) == Some(reg)
  {
    RegisterLookup(st.graph, p, k, reg, d, k);
    assert OnChain(st.graph, p, st.graph[d].parent.value);
    assert !ShadowedBelow(st.graph, p, p, k);
  }

  /** `getOrConstruct(key)` on container `c`. */
  function GetOrConstruct(st: Store, c: Id, k: Key, run: Runner): (r: (Value, Store))
    requires Valid(st) && c < |st.graph|
    ensures Valid(r.1) && r.1.graph == st.graph
    ensures Grows(st.caches, r.1.caches, k)
    ensures r.0 == Read(r.1.caches, c, k)
    ensures k in st.caches[c] ==> r == (st.caches[c][k], st)
  {
    var x := Resolve(st.graph, st.caches, c, k, run);
    (x.0, Store(st.graph, x.1))
  }

  /** Misses are not memoised: if a request for `k` produced nothing, a later
      `set(k, f)` on the same container makes the next request call `f`. */
  lemma LateSetRuns(st: Store, c: Id, k: Key, f: FactoryName, run: Runner)
    requires Valid(st) && c < |st.graph|
    requires GetOrConstruct(st, c, k, run).0 == Undefined
    requires k !in GetOrConstruct(st, c, k, run).1.caches[c]
    ensures var st1 := Set(GetOrConstruct(st, c, k, run).1, c, k, Factory(f));
      var r := GetOrConstruct(st1, c, k, run);
      r.0 == run(f, c, k) && k in r.1.caches[c] && r.1.caches[c][k] == run(f, c, k)
  {
    var st1 := Set(GetOrConstruct(st, c, k, run).1, c, k, Factory(f));
    DirectAlwaysWins(st1.graph, st1.caches, c, k, run, f);
  }

  /** The `i`-th argument of `get`; past the end it is `undefined`, which
      becomes the property name "undefined". */
  function Arg(keys: seq<Key>, i: nat): (key: Key)
    ensures i < |keys| ==> key == keys[i]
    ensures i >= |keys| ==> key == UndefinedKey
  {
    if i < |keys| then keys[i] else UndefinedKey
  }

  /** The keys the loop of `get` reads: every argument, then `undefined`. */
  function Arguments(keys: seq<Key>): (all: seq<Key>)
    ensures |all| == |keys| + 1
    ensures forall i :: 0 <= i < |all| ==> all[i] == Arg(keys, i)
  {
    keys + [UndefinedKey]
  }

  /** Reference semantics of a sequence of requests: each key resolved in turn
      on the store the previous one left. */
  function ResolveAll(st: Store, c: Id, ks: seq<Key>, run: Runner): (r: (seq<Value>, Store))
    requires Valid(st) && c < |st.graph|
    ensures |r.0| == |ks| && Valid(r.1) && r.1.graph == st.graph
    ensures Keeps(st.caches, r.1.caches)
    ensures forall i :: 0 <= i < |ks| && r.0[i] != Undefined ==>
      ks[i] in r.1.caches[c] && r.1.caches[c][ks[i]] == r.0[i]
    decreases |ks|
  {
    if |ks| == 0 then ([], st)
    else
      var p := ResolveAll(st, c, ks[..|ks| - 1], run);
      var x := GetOrConstruct(p.1, c, ks[|ks| - 1], run);
      GrowsKeeps(p.1.caches, x.1.caches, ks[|ks| - 1]);
      KeepsTransitive(st.caches, p.1.caches, x.1.caches);
      (p.0 + [x.0], x.1)
  }

  /** The object `get` fills: one property per key, a later assignment to the
      same key replacing an earlier one. */
  function Collect(ks: seq<Key>, vs: seq<Value>): (m: map<Key, Value>)
    requires |ks| == |vs|
    ensures m.Keys == set k | k in ks
    decreases |ks|
  {
    if |ks| == 0 then map[]
    else
      var n := |ks| - 1;
      assert ks == ks[..n] + [ks[n]];
      Collect(ks[..n], vs[..n])[ks[n] := vs[n]]
  }

  /** A key's entry holds the value of its last occurrence. */
  lemma {:induction false} CollectLastWins(ks: seq<Key>, vs: seq<Value>, i: nat)
    requires |ks| == |vs| && i < |ks| && ks[i] !in ks[i + 1..]
    ensures ks[i] in Collect(ks, vs) && Collect(ks, vs)[ks[i]] == vs[i]
    decreases |ks|
  {
    var n := |ks| - 1;
    if i < n {
      assert ks[n] in ks[i + 1..];
      assert ks[..n][i + 1..] == ks[i + 1..n];
      CollectLastWins(ks[..n], vs[..n], i);
    }
  }

  /** One more request extends the reference run by one value and one store. */
  lemma RequestStep(st: Store, c: Id, ks: seq<Key>, k: Key, run: Runner)
    requires Valid(st) && c < |st.graph|
    ensures var before := ResolveAll(st, c, ks, run);
      var x := GetOrConstruct(before.1, c, k, run);
      ResolveAll(st, c, ks + [k], run) == (before.0 + [x.0], x.1) &&
      Collect(ks + [k], before.0 + [x.0]) == Collect(ks, before.0)[k := x.0]
  {
    var before := ResolveAll(st, c, ks, run);
    assert (ks + [k])[..|ks|] == ks;
    assert (before.0 + [GetOrConstruct(before.1, c, k, run).0])[..|ks|] == before.0;
  }

  /** What a run of requests returns: the object `get` fills, in request
      order, and the store the last request leaves. */
  function Requests(st: Store, c: Id, ks: seq<Key>, run: Runner): (r: (map<Key, Value>, Store))
    requires Valid(st) && c < |st.graph|
    ensures Valid(r.1) && r.1.graph == st.graph
    ensures forall k :: k in r.0 <==> k in ks
  {
    var res := ResolveAll(st, c, ks, run);
    (Collect(ks, res.0), res.1)
  }

  /** After a run of requests, each key's entry holds the value of its last
      request. */
  lemma RequestsLastWins(st: Store, c: Id, ks: seq<Key>, run: Runner, i: nat)
    requires Valid(st) && c < |st.graph|
    requires i < |ks| && ks[i] !in ks[i + 1..]
    ensures Requests(st, c, ks, run).0[ks[i]] == ResolveAll(st, c, ks, run).0[i]
  {
    CollectLastWins(ks, ResolveAll(st, c, ks, run).0, i);
  }

  /** After a run of requests, every returned value other than `undefined` is
      the one the container has cached under that key. */
  lemma RequestsReturnCached(st: Store, c: Id, ks: seq<Key>, run: Runner, k: Key)
    requires Valid(st) && c < |st.graph|
    requires k in Requests(st, c, ks, run).0 && Requests(st, c, ks, run).0[k] != Undefined
    ensures var r := Requests(st, c, ks, run);
      k in r.1.caches[c] && r.1.caches[c][k] == r.0[k]
  {
    var i := LastIndex(ks, k);
    CollectLastWins(ks, ResolveAll(st, c, ks, run).0, i);
  }

  /** `get(...keys)` as written. The loop runs while `i <= arguments.length`,
      so it makes the requests `keys` and then one more, for "undefined", and
      the returned object has an entry for each. */
  method Get(st: Store, c: Id, keys: seq<Key>, run: Runner) returns (deps: map<Key, Value>, st': Store)
    requires Valid(st) && c < |st.graph|
    ensures Valid(st') && st'.graph == st.graph
    ensures forall k :: k in deps <==> k in keys || k == UndefinedKey
    ensures (deps, st') == Requests(st, c, Arguments(keys), run)
  {
    var all := Arguments(keys);
    deps := map[];
    st' := st;
    var i := 0;
    while i <= |keys|
      invariant 0 <= i <= |keys| + 1
      invariant (deps, st') == Requests(st, c, all[..i], run)
    {
      var key := Arg(keys, i);
      assert all[..i + 1] == all[..i] + [key];
      RequestStep(st, c, all[..i], key, run);
      var r := GetOrConstruct(st', c, key, run);
      deps := deps[key := r.0];
      st' := r.1;
      i := i + 1;
    }
    assert all[..i] == all;
    ArgumentsHoldKeys(keys);
  }

  lemma ArgumentsHoldKeys(keys: seq<Key>)
    ensures forall k :: k in Arguments(keys) <==> k in keys || k == UndefinedKey
  {
    assert Arguments(keys)[|keys|] == UndefinedKey;
  }

  /** The position of the last occurrence of `k`. */
  function LastIndex(ks: seq<Key>, k: Key): (i: nat)
    requires k in ks
    ensures i < |ks| && ks[i] == k && k !in ks[i + 1..]
  {
    if ks[|ks| - 1] == k then |ks| - 1
    else
      assert ks == ks[..|ks| - 1] + [ks[|ks| - 1]];
      LastIndex(ks[..|ks| - 1], k)
  }

  /** `get(...keys)` with the loop bound `i < arguments.length`, which returns
      exactly the requested values as the documentation of `get` promises:
      exactly the requested keys are resolved and returned. */
  method GetRequested(st: Store, c: Id, keys: seq<Key>, run: Runner) returns (deps: map<Key, Value>, st': Store)
    requires Valid(st) && c < |st.graph|
    ensures Valid(st') && st'.graph == st.graph
    ensures forall k :: k in deps <==> k in keys
    ensures (deps, st') == Requests(st, c, keys, run)
  {
    deps := map[];
    st' := st;
    var i := 0;
    while i < |keys|
      invariant 0 <= i <= |keys|
      invariant (deps, st') == Requests(st, c, keys[..i], run)
    {
      var key := keys[i];
      assert keys[..i + 1] == keys[..i] + [key];
      RequestStep(st, c, keys[..i], key, run);
      var r := GetOrConstruct(st', c, key, run);
      deps := deps[key := r.0];
      st' := r.1;
      i := i + 1;
    }
    assert keys[..i] == keys;
  }

  /** The `get` as written is the corrected one followed by an extra request
      for "undefined": the store it leaves is the one that extra request leaves,
      and the object gains an entry for "undefined". */
  lemma GetMakesExtraRequest(st: Store, c: Id, keys: seq<Key>, run: Runner)
    requires Valid(st) && c < |st.graph|
    ensures var requested := Requests(st, c, keys, run);
      var extra := GetOrConstruct(requested.1, c, UndefinedKey, run);
      Requests(st, c, Arguments(keys), run) == (requested.0[UndefinedKey := extra.0], extra.1)
  {
    RequestStep(st, c, keys, UndefinedKey, run);
  }

  /** The extra iteration of `get` is observable: on a root whose own table has
      a function under "undefined", `get()` with no arguments calls that function
      and caches its result, although nothing was requested. */
  lemma GetWithoutKeysRunsUndefinedEntry(f: FactoryName, run: Runner)
    ensures var root := New(Empty, [], None);
      var st := Set(root.1, root.0, UndefinedKey, Factory(f));
      var r := Requests(st, root.0, Arguments([]), run);
      r.0 == map[UndefinedKey := run(f, 0, UndefinedKey)] && r.1.caches[0] == map[UndefinedKey := run(f, 0, UndefinedKey)]
  {
    var root := New(Empty, [], None);
    var st := Set(root.1, root.0, UndefinedKey, Factory(f));
    GetMakesExtraRequest(st, 0, [], run);
    DirectAlwaysWins(st.graph, st.caches, 0, UndefinedKey, run, f);
    NoLinksNoAnswer(st.graph, st.caches, 0, UndefinedKey, run);
  }

  // Scenarios of the repository's tests, stated for every constructor behaviour

  /** Two injectors in different branches of the tree, the consumer linked to
      the provider: once the provider has built `foo`, the consumer gets the very
      same instance, and both now hold it. */
  lemma LinkedInjectorsShareInstances(foo: Key, f: FactoryName, run: Runner)
    requires IsTruthy(run(f, 1, foo))
    ensures var root := New(Empty, [], None);
      var provider := Module(root.1, root.0, []);
      var consumer := Module(provider.1, root.0, [provider.0]);
      var st := Set(consumer.1, provider.0, foo, Factory(f));
      var fromProvider := GetOrConstruct(st, provider.0, foo, run);
      var fromConsumer := GetOrConstruct(fromProvider.1, consumer.0, foo, run);
      fromProvider.0 == run(f, 1, foo) && fromConsumer.0 == run(f, 1, foo) &&
      fromConsumer.1.caches[1][foo] == fromConsumer.1.caches[2][foo]
  {
    var root := New(Empty, [], None);
    var provider := Module(root.1, root.0, []);
    var consumer := Module(provider.1, root.0, [provider.0]);
    var st := Set(consumer.1, provider.0, foo, Factory(f));
    var fromProvider := GetOrConstruct(st, provider.0, foo, run);
    DirectAlwaysWins(st.graph, st.caches, 1, foo, run, f);
    NoLinksNoAnswer(st.graph, st.caches, 1, foo, run);
    var s1 := fromProvider.1;
    assert SearchLinks(s1.graph, s1.caches, [1], foo, run, 2).0 == run(f, 1, foo);
    NoLinksNoAnswer(s1.graph, s1.caches, 0, foo, run);
    LinkBeatsInherited(s1.graph, s1.caches, 2, foo, run);
  }

  /** A parent and its child, the constructor registered on the parent after
      the child was created: each builds its own instance by calling the
      constructor with itself, and the child's request leaves the parent's
      instance untouched. */
  lemma ChildrenBuildTheirOwnInstances(foo: Key, f: FactoryName, run: Runner)
    ensures var root := New(Empty, [], None);
      var child := Module(root.1, root.0, []);
      var st := Set(child.1, root.0, foo, Factory(f));
      var fromParent := GetOrConstruct(st, root.0, foo, run);
      var fromChild := GetOrConstruct(fromParent.1, child.0, foo, run);
      fromParent.0 == run(f, 0, foo) && fromChild.0 == run(f, 1, foo) &&
      fromChild.1.caches[0] == map[foo := run(f, 0, foo)] &&
      fromChild.1.caches[1] == map[foo := run(f, 1, foo)]
  {
    var root := New(Empty, [], None);
    var child := Module(root.1, root.0, []);
    var st := Set(child.1, root.0, foo, Factory(f));
    DirectAlwaysWins(st.graph, st.caches, 0, foo, run, f);
    NoLinksNoAnswer(st.graph, st.caches, 0, foo, run);
    var s1 := GetOrConstruct(st, root.0, foo, run).1;
    assert Classify(s1.graph, 1, foo) == Inherited(f);
    ChildBuildsOwnInstance(s1.graph, s1.caches, 1, foo, run, f);
  }

  /** One constructor registered under two keys of a container is called once
      for each key, and each key caches its own result: nothing forces the two
      results to be the same object. */
  lemma OneConstructorTwoKeys(a: Key, b: Key, f: FactoryName, run: Runner)
    requires a != b
    ensures var root := New(Empty, [], None);
      var st := Set(Set(root.1, root.0, a, Factory(f)), root.0, b, Factory(f));
      var fromA := GetOrConstruct(st, root.0, a, run);
      var fromB := GetOrConstruct(fromA.1, root.0, b, run);
      fromA.0 == run(f, 0, a) && fromB.0 == run(f, 0, b) &&
      fromB.1.caches[0] == map[a := run(f, 0, a), b := run(f, 0, b)]
  {
    var root := New(Empty, [], None);
    var st := Set(Set(root.1, root.0, a, Factory(f)), root.0, b, Factory(f));
    assert st.graph[0].own[a] == Factory(f);
    DirectAlwaysWins(st.graph, st.caches, 0, a, run, f);
    NoLinksNoAnswer(st.graph, st.caches, 0, a, run);
    var s1 := GetOrConstruct(st, root.0, a, run).1;
    DirectAlwaysWins(s1.graph, s1.caches, 0, b, run, f);
    NoLinksNoAnswer(s1.graph, s1.caches, 0, b, run);
  }
}
